=== FILE: README.md ===
# ContextServer presence bridge — a Dafny model

ContextServer is a small SIP presence bridge. It subscribes to the presence of
watched parties. It acknowledges inbound SIP requests. From every NOTIFY that
carries a PIDF presence document (RFC 3863) it extracts the `basic` status and
the free-text `note`, and keeps `reporter -> basic` in a process-wide
dictionary. Every 30 seconds a timer drains that dictionary into a single SIP
MESSAGE to the SCIM sink `<sip:scim@open-ims.test>`.

The model has five modules:

- `Wrappers`: the `Option` type.
- `Text`: the .NET string operations the bridge relies on, written out with
  ordinal semantics: `ToUpper`, `Contains`, `Replace(pattern, "")` (as
  `RemoveAll`), `Trim` and the argument-less `Split()`. `Split()` keeps empty
  tokens between consecutive separators.
- `Dispatch`: routing of inbound requests (`AppRequestRecvEvent`'s switch) and
  responses (`AppResponseRecvEvent`'s switch on the CSeq request type), and
  the proxy-port default of `CreateStack`.
- `Presence`: the value-level part of `ProcessRequest` and of
  `SendPresenceToSCIM`. It covers the three guards, the fold over the document's
  elements, the normalisation of the reporter address, the store transition of
  one request (`Processed`), its effect once routing has let it through
  (`Received`) and of a run of received requests (`ProcessAll`), and the
  layout of the drained blob (`Serialize`).
- `ContextServer`: class `Program`, whose field `statusdict` is the static
  `_statusdict`. Its methods are `AppRequestRecvEvent`, `ProcessRequest` and
  `SendPresenceToScim`. Each is proved against the functions of `Presence`. A
  client method, `TwoReportsThenDrain`, runs two reports for one reporter
  followed by a forward cycle.

Sends to the SIP stack are not performed. They are returned: the responses
`AppRequestRecvEvent` sends, and the `Option<Message>` of a forward cycle.
Log lines appear as two outcomes and as comments. `RouteRequest` returns
`LogUnhandled(upperMethod)` for the unhandled-request log line, and
`RouteResponse` returns the outcome of the response switch.

### Behaviour of the code worth knowing

- **The first report since the last drain wins.** The dictionary is updated
  with `Dictionary.Add` (ContextServer/Program.cs:134). `Add` throws on a key
  that is already present, and the `catch` at lines 136-139 swallows the
  exception. So a second report for the same reporter is dropped until the
  next drain (`Presence.FirstReportWins`, `Presence.KnownReporterKept`). Two
  reports "open" then "closed" from `sip:alice@open-ims.test`, followed by a
  forward cycle, send `alice@open-ims.test:open`
  (`ContextServer.TwoReportsThenDrain`).
- **A document without a basic status is still stored.** A well-formed
  document with no PIDF `basic` element stores the reporter with the empty
  status (`Presence.MissingBasicStoredEmpty`).
- **The response handler can throw.** It throws when the CSeq header is
  missing, or when its trimmed text has no second token: `Split()[1]` is then
  out of range. The model returns `None` for these cases
  (`Dispatch.RouteResponse`, `Dispatch.SingleTokenThrows`).
- **"sip:" is removed anywhere.** `Replace("sip:", "")` removes the text
  wherever it occurs, not only as the scheme: `sip:bob@gossip:5060` gives the
  key `bob@gos5060` (`Presence.InnerSchemeRemoved`). The scheme `sips:` itself
  contains no "sip:", so it is never removed, but a `sips:` URI is not always
  its own key: `sips:bob@gossip:5061` gives `sips:bob@gos5061`. A bracket-free
  `sips:` URI with no other "sip:" in it is its own key
  (`Presence.NormaliseContactUnchanged`).
- **No lock.** Nothing synchronises the timer's drain with the insertion of
  reports. Here, insertion and drain are sequential method calls.

## Model

| member | source | states |
|---|---|---|
| `Dispatch.RouteRequest` | ContextServer/Program.cs:76-99 | a request is acknowledged exactly when its upper-cased method is one of INVITE, REGISTER, BYE, ACK, MESSAGE, OPTIONS, REFER, SUBSCRIBE, NOTIFY; otherwise it is logged as unhandled with the upper-cased method |
| `Dispatch.RouteRequestIgnoresCase` | ContextServer/Program.cs:76 | routing depends only on the upper-cased method, so any spelling of a method is routed like its upper-case form |
| `Dispatch.PublishAndInfoUnhandled` | ContextServer/Program.cs:93-98 | PUBLISH and INFO, in any case, are not acknowledged and are only logged |
| `Dispatch.RequestTypeOf` | ContextServer/Program.cs:40 | the request type is the upper-cased second token of the trimmed CSeq text; there is none (the indexing throws) exactly when the text has fewer than two tokens |
| `Dispatch.RouteResponse` | ContextServer/Program.cs:36-70 | SUBSCRIBE with code 200 is confirmed, with another code nothing is logged; MESSAGE with 200 is delivered, otherwise failed; every other type is unhandled; each in both directions, plus the throwing cases (no CSeq header, no second token) |
| `Dispatch.RequestTypeOfWellFormed` | ContextServer/Program.cs:40 | for a CSeq text "number method" with one white-space separator, the request type is the method upper-cased |
| `Dispatch.DoubleSeparatorUnhandled` | ContextServer/Program.cs:40-68 | with two separators between number and method, the second token is empty, so even SUBSCRIBE and MESSAGE responses are logged as unhandled |
| `Dispatch.SingleTokenThrows` | ContextServer/Program.cs:40 | a CSeq text that is one token after trimming makes the handler throw instead of logging |
| `Dispatch.ProxyPort` | ContextServer/Program.cs:20-29 | a proxy port is set exactly when a proxy host is given; the stack never receives the sentinel -1, and a port the caller gives is used unchanged |
| `Dispatch.OmittedPortIsSipDefault` | ContextServer/Program.cs:20-27 | leaving the port out is the same as asking for 5060 |
| `Text.RemoveAll` | ContextServer/Program.cs:130-132 | `Replace(pattern, "")` never lengthens a string and keeps only characters of its input; what it removes is stated by the lemmas below |
| `Text.RemoveAllCharAbsent` | ContextServer/Program.cs:130-131 | removing a one-character pattern leaves no occurrence of that character |
| `Text.RemoveAllWithoutOccurrence` | ContextServer/Program.cs:130-132 | a string in which the pattern does not occur is returned unchanged |
| `Text.RemoveAllPrefix` | ContextServer/Program.cs:130-132 | an occurrence of the pattern at the front is removed whole |
| `Text.RemoveAllCharAtEnd` | ContextServer/Program.cs:131 | a trailing character that occurs nowhere else is removed, and nothing else is |
| `Text.RemoveAllTwoOccurrences` | ContextServer/Program.cs:132 | when the pattern's last character occurs neither earlier in the pattern nor in a text, removing the pattern from pattern + text + pattern + rest keeps the text and removes from the rest |
| `Text.RemoveAllBeforeOccurrence` | ContextServer/Program.cs:132 | under the same condition no occurrence starts inside the text, so removal keeps it whole and continues after the occurrence that follows it |
| `Text.NoOccurrenceAtFront` | ContextServer/Program.cs:132 | under the same condition, text + pattern + rest does not start with the pattern when the text is non-empty |
| `Text.RemoveAllSkip` | ContextServer/Program.cs:130-132 | a first character that does not start an occurrence is kept and the scan goes on after it |
| `Text.ContainsAt` | ContextServer/Program.cs:105 | `Contains` holds whenever the substring occurs at some index |
| `Text.ContainsWitness` | ContextServer/Program.cs:105 | `Contains` holds only when the substring occurs at some index |
| `Text.Contains` | ContextServer/Program.cs:105 | a string never contains a longer one |
| `Text.ContainsCharsPresent` | ContextServer/Program.cs:105 | a string contains a substring only if it is at least as long and has each of its characters |
| `Text.TrimStart` | ContextServer/Program.cs:40 | the result is a suffix of the input, does not start with white space, and only white space was dropped |
| `Text.TrimEnd` | ContextServer/Program.cs:40 | the result is a prefix of the input, does not end with white space, and only white space was dropped |
| `Text.Trim` | ContextServer/Program.cs:40 | the trimmed text is no longer than the input and has white space at neither end |
| `Text.TrimUntouched` | ContextServer/Program.cs:40 | a string with non-white-space ends is its own trim |
| `Text.Split` | ContextServer/Program.cs:40 | `Split()` yields one token more than there are white-space characters, and no token holds white space |
| `Text.SplitJoin` | ContextServer/Program.cs:40 | the tokens joined with the separators they were split at give back the input |
| `Text.SplitSingleToken` | ContextServer/Program.cs:40 | a string without white space splits into itself alone |
| `Text.SplitLeadingToken` | ContextServer/Program.cs:40 | a token followed by one separator is split off whole and the rest is split on its own |
| `Text.ToUpper` | ContextServer/Program.cs:76 | upper-casing keeps the length and every character that is not a lower-case letter, and leaves no lower-case letter |
| `Text.ToUpperIdempotent` | ContextServer/Program.cs:76 | upper-casing an upper-cased string changes nothing |
| `Presence.LastText` | ContextServer/Program.cs:114-128 | the value of the fold is "" or the text of some element with that name |
| `Presence.ExtractPresence` | ContextServer/Program.cs:114-128 | the loop over the descendants leaves `basic` and `note` equal to the text of the last PIDF `basic` and the last PIDF `note` element, in document order |
| `Presence.LastTextIsLastMatch` | ContextServer/Program.cs:114-128 | the value after the fold is the text of the last element with that name |
| `Presence.LastTextWithoutMatch` | ContextServer/Program.cs:114-115 | without an element of that name the value keeps its initial "" |
| `Presence.NormaliseContact` | ContextServer/Program.cs:129-132 | the reporter key contains no "<" and no ">", and only characters of the From URI |
| `Presence.NormaliseContactUnchanged` | ContextServer/Program.cs:129-132 | a URI containing none of "<", ">", "sip:" is its own key |
| `Presence.AddressWithoutColonUnchanged` | ContextServer/Program.cs:129-132 | a bare user@host address, without brackets or colon, is its own key |
| `Presence.SchemeStripped` | ContextServer/Program.cs:129-132 | for a bracket-free text without "sip:" in it (a port is allowed), `sip:` plus the text and `<sip:` plus the text plus `>` both give the text as the key |
| `Presence.InnerSchemeRemoved` | ContextServer/Program.cs:132 | "sip:" is removed wherever it occurs: `sip:` + a + `sip:` + b gives a + b for a colon-free a |
| `Presence.BracketFreeNormalised` | ContextServer/Program.cs:129-132 | for a URI without angle brackets, normalising only removes "sip:" |
| `Presence.SchemeRemoved` | ContextServer/Program.cs:132 | removing "sip:" from `sip:` followed by a text without "sip:" in it leaves that text |
| `Presence.BracketsRemoved` | ContextServer/Program.cs:130-131 | removing "<" and then ">" from a bracketed text without inner brackets leaves the inside |
| `Presence.OpenRemoved` | ContextServer/Program.cs:130 | a leading "<" is removed and nothing else when there is no other "<" |
| `Presence.CloseRemoved` | ContextServer/Program.cs:131 | a trailing ">" is removed and nothing else when there is no other ">" |
| `Presence.NoCharUnchanged` | ContextServer/Program.cs:130-131 | removing a character absent from a text leaves the text as it is |
| `Presence.NoSchemeUnchanged` | ContextServer/Program.cs:132 | a text without ":" has no "sip:" in it, so removing "sip:" leaves it as it is |
| `Presence.CarriesPresence` | ContextServer/Program.cs:105-109 | the three nested guards: the upper-cased method contains NOTIFY, a Content-Length header is present and the body is non-empty; its ensures only adds that the method name is then at least six characters long |
| `Presence.Report` | ContextServer/Program.cs:105-134 | a pair reaches `Add` exactly when the three guards hold and both the document and the From address are there; its reporter has no angle brackets and its status is the last basic text of the document |
| `Presence.NotifyFromSipUri` | ContextServer/Program.cs:76-134 | a NOTIFY in any case, with a Content-Length header, a body, a parsed document and a `sip:` sender URI, is acknowledged and reports the URI's user@host part with the document's last basic status |
| `Presence.NotifyPassesGuards` | ContextServer/Program.cs:76-109 | a NOTIFY in any case with a Content-Length header and a body is acknowledged and passes the three guards |
| `Presence.Processed` | ContextServer/Program.cs:103-143 | one request never removes or overwrites an entry and adds at most one; the store is unchanged unless all three guards hold, and unchanged on a parse failure or a bad From header; any change is the insertion of the report's reporter, absent before, with its status |
| `Presence.NewReporterAdded` | ContextServer/Program.cs:134 | a report for a reporter not in the store adds exactly the entry reporter -> basic |
| `Presence.KnownReporterKept` | ContextServer/Program.cs:134-139 | a report for a reporter already in the store is dropped (the `Add` exception is caught) and the earlier value stays |
| `Presence.OtherReportLeavesAbsent` | ContextServer/Program.cs:134 | a request that reports nothing for a key does not add that key |
| `Presence.MissingBasicStoredEmpty` | ContextServer/Program.cs:114-134 | a parsed document without a PIDF basic element stores its reporter with the empty status |
| `Presence.OnlyNotifyChangesStore` | ContextServer/Program.cs:76-105 | of the acknowledged methods, only NOTIFY can change the store |
| `Presence.NotifyOnlyInNotify` | ContextServer/Program.cs:78-86 | none of the eight other acknowledged methods contains "NOTIFY" |
| `Presence.Accepted` | ContextServer/Program.cs:76-134 | a request reports a pair as the server receives it exactly when it is acknowledged and its `ProcessRequest` reaches `Add`; every such request is a NOTIFY |
| `Presence.Received` | ContextServer/Program.cs:72-143 | after one received request the store only grows and keeps every value; a change is the insertion of an accepted report for an absent reporter |
| `Presence.AcknowledgedReportIsNotify` | ContextServer/Program.cs:76-109 | an acknowledged request that passes the guards of `ProcessRequest` and reports a pair has the upper-cased method "NOTIFY" |
| `Presence.AcceptedAdded` | ContextServer/Program.cs:72-134 | an accepted report for an absent reporter adds exactly that entry |
| `Presence.ProcessAll` | ContextServer/Program.cs:72-143 | over a run of received requests between drains the store only grows, by at most one reporter per request |
| `Presence.LoggedRequestsIgnored` | ContextServer/Program.cs:93-98 | a run of requests that are only logged leaves the store as it was, whatever they carry |
| `Presence.StoredStatusKept` | ContextServer/Program.cs:134-139 | between two drains, a stored status is never replaced by later received requests |
| `Presence.FirstReportWins` | ContextServer/Program.cs:72-139 | between two drains, a reporter's value is that of its first accepted report |
| `Presence.UnreportedAbsent` | ContextServer/Program.cs:72-134 | a reporter for which no received request is accepted stays absent |
| `Presence.Serialize` | ContextServer/Program.cs:182-186 | the blob has at least one character per key and is empty exactly when there are no keys |
| `Presence.SerializeConcat` | ContextServer/Program.cs:183-186 | appending entries in two runs gives the concatenation of the two blobs |
| `Presence.SerializeAt` | ContextServer/Program.cs:183-186 | each key's `key:value` entry sits between the blob of the keys before it and the blob of the keys after it |
| `Presence.DistinctKeysBounded` | ContextServer/Program.cs:183 | an enumeration of the dictionary has exactly as many keys as the dictionary |
| `Presence.DrainedBodyListsEveryEntry` | ContextServer/Program.cs:180-189 | the drained blob holds every entry exactly once, with no separator between entries |
| `ContextServer.Program.constructor` | ContextServer/Program.cs:19 | the store starts empty |
| `ContextServer.Program.AppRequestRecvEvent` | ContextServer/Program.cs:72-101 | an acknowledged request gets exactly one 200 OK and the store becomes `Processed` of the old store; any other request gets no response and leaves the store unchanged; in both cases the new store is `Received` of the old one |
| `ContextServer.Program.ProcessRequest` | ContextServer/Program.cs:103-143 | the new store is `Processed` of the old store and the request |
| `ContextServer.Program.SendPresenceToScim` | ContextServer/Program.cs:178-190 | on an empty store nothing is sent; otherwise one message to `<sip:scim@open-ims.test>` whose body serialises the old store in one enumeration order of its keys; the store is empty afterwards |
| `ContextServer.ForwardTwice` | ContextServer/Program.cs:178-190 | a forward cycle over a single entry sends `reporter:status` and empties the store; the next cycle sends nothing |
| `ContextServer.SingleKeyEnumeration` | ContextServer/Program.cs:183-186 | a store with one entry has one enumeration order, and its blob is that entry |
| `ContextServer.SecondReportDropped` | ContextServer/Program.cs:134-139 | of two reports for one reporter into an empty store, the first is kept and the second dropped |
| `ContextServer.TwoNotifiesFromOneUri` | ContextServer/Program.cs:76-134 | two NOTIFYs from the same `sip:` URI with a colon-free user@host part are both acknowledged and both report that user@host part |
| `ContextServer.TwoReportsThenDrain` | ContextServer/Program.cs:72-190 | two NOTIFYs from `sip:alice@open-ims.test`, "open" then "closed", followed by a forward cycle, forward `alice@open-ims.test:open` |

## Left out

- The SIP stack (SIPLib). `SIPStack`, `UserAgent`, `CreateResponse`,
  `SendResponse`, `SendRequest` and `SendMessage` are foreign calls: responses
  and messages are returned, not sent. The parsing of `Address`/`SIPURI` and
  their `ToString` are not modelled either. The From URI text and the CSeq
  header text are inputs (`Request.fromUri`, the `cseq` argument).
- `Dispatch.RouteResponse`: takes the CSeq header's text as given. What
  SIPLib's `Header.ToString()` produces from the header is not modelled. The
  effect of the escaping exception on the SIP stack is not modelled either.
- XML parsing (`XDocument.Parse`, `Descendants()`). The parsed document is an
  input: the descendants in document order, with their expanded names and text
  values. A parse failure is `document == None`.
- `Subscribe`: it only builds and sends a SUBSCRIBE through the library.
- `StartTimer`: the 30-second `System.Timers.Timer`. A forward cycle is a call
  of `SendPresenceToScim`.
- The unsynchronised race between the timer callback and the receive loop.
  Insertion and drain are modelled as atomic, sequential method calls.
- `Main` and `CreateTransport`: console loop, hard-coded configuration, UDP
  sockets. Only the `CreateStack` port default is modelled.
- log4net logging. The only log outcomes modelled are `RouteRequest`'s
  `LogUnhandled(upperMethod)` and the values of `RouteResponse`; the other log
  lines are not.
- `Text.ToUpper`: maps only the ASCII letters. .NET's `ToUpper()` also
  upper-cases non-ASCII letters (é to É, ñ to Ñ) in every culture, so for a
  method name with such letters the logged `upperMethod` differs from the
  program's. Culture-specific casing is not captured either: under a Turkish
  or Azerbaijani culture a lower-case `i` becomes `İ` (U+0130), so there a
  lower-case method name containing `i` (`notify`, `invite`, `register`,
  `options`, `subscribe`) would not be acknowledged.
- `Request.headerNames`: header lookup is exact, case-sensitive set
  membership. The key comparer of SIPLib's header table is not modelled.
- `Request.body`: its length is counted in characters, not UTF-16 code units.
  Only "non-empty" matters, and that is the same either way.
- The `note` value is extracted (`ExtractPresence`) but, as in the source, only
  logged and never stored.
- `ContextServer.Program.SendPresenceToScim`: .NET does not specify dictionary
  enumeration order. The method picks keys in an arbitrary order and states the
  blob in terms of the order it used (a ghost out-parameter), not a fixed one.

=== FILE: context_server.dfy ===
/** The stateful part of the bridge: the process-wide status dictionary and
    the three handlers that read and change it. Sends to the SIP stack are
    returned to the caller instead of performed. */
module ContextServer {
  import opened Wrappers
  import opened Text
  import opened Dispatch
  import opened Presence

  /** A response sent back on the request's dialog. */
  datatype Response = Response(code: int, reason: string)

  class Program {
    /** Reporter address to the first basic status reported since the last
        drain. */
    var statusdict: map<string, string>

    constructor ()
      ensures statusdict == map[]
    {
      statusdict := map[];
    }

    /** `AppRequestRecvEvent`: an acknowledged method gets one 200 OK and is
        processed; any other method is only logged. */
    method AppRequestRecvEvent(req: Request) returns (sent: seq<Response>)
      modifies this
      ensures RouteRequest(req.sipMethod) == Acknowledge ==>
                sent == [Response(200, "OK")] && statusdict == Processed(old(statusdict), req)
      ensures RouteRequest(req.sipMethod) != Acknowledge ==>
                sent == [] && statusdict == old(statusdict)
      ensures statusdict == Received(old(statusdict), req)
    {
      match RouteRequest(req.sipMethod) {
        case Acknowledge =>
          sent := [Response(200, "OK")];
          ProcessRequest(req);
        case LogUnhandled(_) =>
          sent := [];
      }
    }

    /** `ProcessRequest`: behind the three guards, fold the document, derive
        the reporter and `Add` the pair; every failure inside the `try`,
        including `Add` on a present key, is caught and leaves the store as it
        was. */
    method ProcessRequest(req: Request)
      modifies this
      ensures statusdict == Processed(old(statusdict), req)
    {
      if Contains(ToUpper(req.sipMethod), "NOTIFY") {
        if ContentLengthHeader in req.headerNames {
          if |req.body| > 0 {
            match req.document {
              case None =>
                // the parser threw: logged as a warning
              case Some(elems) =>
                var basic, note := ExtractPresence(elems);
                match req.fromUri {
                  case None =>
                    // no From address: the cast threw, logged as a warning
                  case Some(uri) =>
                    var contact := NormaliseContact(uri);
                    assert Report(req) == Some((contact, basic));
                    if contact !in statusdict {
                      statusdict := statusdict[contact := basic];
                    }
                    // otherwise Add threw on the duplicate key, logged as a warning
                }
            }
          }
        }
      }
    }

    /** `SendPresenceToSCIM`: when the store has entries, concatenate them in
        the dictionary's enumeration order, clear the store and send the blob
        to the SCIM sink; when it is empty, do nothing. `order` is the
        enumeration order that was used. */
    method SendPresenceToScim() returns (msg: Option<Message>, ghost order: seq<string>)
      modifies this
      ensures statusdict == map[]
      ensures msg.None? <==> old(statusdict) == map[]
      ensures msg.Some? ==>
                && IsEnumeration(order, old(statusdict).Keys)
                && msg.value == Message(ScimAddress, Serialize(order, old(statusdict)))
    {
      msg, order := None, [];
      if |statusdict| > 0 {
        var sb := "";
        var pending := statusdict.Keys;
        while pending != {}
          invariant statusdict == old(statusdict)
          invariant pending <= statusdict.Keys
          invariant forall k :: k in order ==> k in statusdict && k !in pending
          invariant forall k :: k in statusdict ==> k in order || k in pending
          invariant Distinct(order)
          invariant sb == Serialize(order, statusdict)
          decreases pending
        {
          var k :| k in pending;
          SerializeConcat(order, [k], statusdict);
          sb := sb + Entry(k, statusdict[k]);
          order := order + [k];
          pending := pending - {k};
        }
        msg := Some(Message(ScimAddress, sb));
        statusdict := map[];
      } else {
        assert statusdict == map[];
      }
    }
  }

  /** The arrival of two reports from `sip:alice@open-ims.test`, "open" and
      then "closed", followed by a forward cycle: the second report is
      dropped, so the forwarded blob carries the first status under the
      scheme-less address, and the store is left empty. */
  method TwoReportsThenDrain(elemsOpen: seq<Element>, elemsClosed: seq<Element>, headers: set<string>)
    returns (blob: string)
    requires ContentLengthHeader in headers
    requires LastText(elemsOpen, PidfBasic) == "open"
    requires LastText(elemsClosed, PidfBasic) == "closed"
    ensures blob == Entry("alice@open-ims.test", "open")
  {
    var alice := "alice@open-ims.test";
    var first := Request("NOTIFY", headers, "<presence/>", Some(elemsOpen), Some("sip:" + alice));
    var second := Request("notify", headers, "<presence/>", Some(elemsClosed), Some("sip:" + alice));
    NotifyInAnyCase();
    TwoNotifiesFromOneUri(first, second, elemsOpen, elemsClosed, alice);
    SecondReportDropped(first, second, alice, "open", "closed");

    var server := new Program();
    var sent := server.AppRequestRecvEvent(first);
    assert sent == [Response(200, "OK")];
    sent := server.AppRequestRecvEvent(second);
    assert sent == [Response(200, "OK")] && server.statusdict == map[alice := "open"];

    var again;
    blob, again := ForwardTwice(server, alice, "open");
    assert again == None;
  }

  /** Two forward cycles over a store with a single entry: the first sends
      that entry and empties the store, the second sends nothing. */
  method ForwardTwice(server: Program, reporter: string, status: string) returns (blob: string, again: Option<Message>)
    requires server.statusdict == map[reporter := status]
    modifies server
    ensures server.statusdict == map[]
    ensures blob == Entry(reporter, status)
    ensures again == None
  {
    assert reporter in server.statusdict;
    var msg, order := server.SendPresenceToScim();
    SingleKeyEnumeration(order, reporter, status);
    assert msg == Some(Message(ScimAddress, Entry(reporter, status)));
    blob := msg.value.body;
    again, order := server.SendPresenceToScim();
  }

  /** A store with one entry has one enumeration, and its blob is that entry. */
  lemma SingleKeyEnumeration(order: seq<string>, k: string, v: string)
    requires IsEnumeration(order, map[k := v].Keys)
    ensures order == [k] && Serialize(order, map[k := v]) == Entry(k, v)
  {
    DrainedBodyListsEveryEntry(order, map[k := v]);
    assert order[0] in order;
  }

  /** Two NOTIFYs from the same `sip:` URI, whose user@host part has no
      colon, are both acknowledged and both report that user@host part. */
  lemma TwoNotifiesFromOneUri(first: Request, second: Request, elemsFirst: seq<Element>, elemsSecond: seq<Element>, user: string)
    requires ToUpper(first.sipMethod) == "NOTIFY" && ToUpper(second.sipMethod) == "NOTIFY"
    requires ContentLengthHeader in first.headerNames && |first.body| > 0
    requires ContentLengthHeader in second.headerNames && |second.body| > 0
    requires first.document == Some(elemsFirst) && first.fromUri == Some("sip:" + user)
    requires second.document == Some(elemsSecond) && second.fromUri == Some("sip:" + user)
    requires '<' !in user && '>' !in user && ':' !in user
    ensures RouteRequest(first.sipMethod) == Acknowledge && RouteRequest(second.sipMethod) == Acknowledge
    ensures Report(first) == Some((user, LastText(elemsFirst, PidfBasic)))
    ensures Report(second) == Some((user, LastText(elemsSecond, PidfBasic)))
  {
    NoSchemeUnchanged(user);
    NotifyFromSipUri(first, elemsFirst, user);
    NotifyFromSipUri(second, elemsSecond, user);
  }

  /** Of two reports for the same reporter into an empty store, the first
      is kept and the second dropped. */
  lemma SecondReportDropped(first: Request, second: Request, reporter: string, status1: string, status2: string)
    requires Report(first) == Some((reporter, status1))
    requires Report(second) == Some((reporter, status2))
    ensures Processed(map[], first) == map[reporter := status1]
    ensures Processed(Processed(map[], first), second) == map[reporter := status1]
  {
    NewReporterAdded(map[], first, reporter, status1);
    KnownReporterKept(map[reporter := status1], second);
  }

  /** The method names of the scenario, upper-cased. */
  lemma NotifyInAnyCase()
    ensures ToUpper("NOTIFY") == "NOTIFY" && ToUpper("notify") == "NOTIFY"
  {
  }
}

=== FILE: dispatch.dfy ===
/** Routing of inbound SIP events by method name (`AppRequestRecvEvent`,
    `AppResponseRecvEvent`) and the proxy-port default of `CreateStack`. */
module Dispatch {
  import opened Wrappers
  import opened Text

  /** The request methods that are acknowledged with 200 OK and processed. */
  const AcknowledgedMethods: set<string> :=
    {"INVITE", "REGISTER", "BYE", "ACK", "MESSAGE", "OPTIONS", "REFER", "SUBSCRIBE", "NOTIFY"}

  /** What happens to an inbound request: acknowledged and handed on to
      request processing, or only logged as unhandled (with the upper-cased
      method that the log line shows). */
  datatype RequestRoute = Acknowledge | LogUnhandled(upperMethod: string)

  /** The switch on `request.Method.ToUpper()`. */
  function RouteRequest(sipMethod: string): (r: RequestRoute)
    ensures r == Acknowledge <==> ToUpper(sipMethod) in AcknowledgedMethods
    ensures r.LogUnhandled? ==> r.upperMethod == ToUpper(sipMethod) && r.upperMethod !in AcknowledgedMethods
  {
    var m := ToUpper(sipMethod);
    if m in AcknowledgedMethods then Acknowledge else LogUnhandled(m)
  }

  /** Routing ignores the case of the method: `notify` and `NoTiFy` are routed
      like `NOTIFY`. */
  lemma RouteRequestIgnoresCase(sipMethod: string)
    ensures RouteRequest(sipMethod) == RouteRequest(ToUpper(sipMethod))
  {
    ToUpperIdempotent(sipMethod);
  }

  /** PUBLISH and INFO, although named in the switch, fall into the unhandled
      branch with every method outside the acknowledged nine. */
  lemma PublishAndInfoUnhandled(sipMethod: string)
    requires ToUpper(sipMethod) == "PUBLISH" || ToUpper(sipMethod) == "INFO"
    ensures RouteRequest(sipMethod) == LogUnhandled(ToUpper(sipMethod))
  {
  }

  /** The log outcome of an inbound response. */
  datatype ResponseOutcome =
    | SubscribeConfirmed          // 200 to a SUBSCRIBE: "Successfully subscribed"
    | SubscribeNotConfirmed       // any other code to a SUBSCRIBE: nothing is logged
    | MessageDelivered            // 200 to a MESSAGE: "Successfully sent SCIM status information"
    | MessageFailed               // any other code to a MESSAGE: "Problem sending SCIM status information"
    | Unhandled(requestType: string) // every other request type, INVITE and REGISTER included

  /** The request type of a response: the second token of the trimmed CSeq
      header text, upper-cased; `None` when there is no second token, where
      the indexing `Split()[1]` throws. */
  function RequestTypeOf(cseq: string): (r: Option<string>)
    ensures r.None? <==> |Split(Trim(cseq))| < 2
    ensures r.Some? ==> r.value == ToUpper(Split(Trim(cseq))[1])
  {
    var tokens := Split(Trim(cseq));
    if |tokens| < 2 then None else Some(ToUpper(tokens[1]))
  }

  /** `AppResponseRecvEvent`: the outcome for a response with the given CSeq
      header text (`None` when the header is missing) and status code. The
      result is `None` when the handler throws instead of logging, which is
      when the header is missing or has no second token. */
  function RouteResponse(cseq: Option<string>, code: int): (r: Option<ResponseOutcome>)
    ensures r.None? <==> cseq.None? || RequestTypeOf(cseq.value).None?
    ensures r == Some(SubscribeConfirmed) <==>
              cseq.Some? && RequestTypeOf(cseq.value) == Some("SUBSCRIBE") && code == 200
    ensures r == Some(SubscribeNotConfirmed) <==>
              cseq.Some? && RequestTypeOf(cseq.value) == Some("SUBSCRIBE") && code != 200
    ensures r == Some(MessageDelivered) <==>
              cseq.Some? && RequestTypeOf(cseq.value) == Some("MESSAGE") && code == 200
    ensures r == Some(MessageFailed) <==>
              cseq.Some? && RequestTypeOf(cseq.value) == Some("MESSAGE") && code != 200
    ensures r.Some? && r.value.Unhandled? ==>
              RequestTypeOf(cseq.value) == Some(r.value.requestType) &&
              r.value.requestType != "SUBSCRIBE" && r.value.requestType != "MESSAGE"
  {
    match cseq
    case None => None
    case Some(header) =>
      match RequestTypeOf(header)
      case None => None
      case Some(requestType) =>
        if requestType == "SUBSCRIBE" then
          Some(if code == 200 then SubscribeConfirmed else SubscribeNotConfirmed)
        else if requestType == "MESSAGE" then
          Some(if code == 200 then MessageDelivered else MessageFailed)
        else
          Some(Unhandled(requestType))
  }

  /** A well-formed CSeq value, a sequence number and a method separated by one
      white-space character, yields that method upper-cased. */
  lemma RequestTypeOfWellFormed(number: string, w: char, sipMethod: string)
    requires number != [] && sipMethod != []
    requires NoWhiteSpace(number) && NoWhiteSpace(sipMethod) && IsWhiteSpace(w)
    ensures RequestTypeOf(number + [w] + sipMethod) == Some(ToUpper(sipMethod))
  {
    var s := number + [w] + sipMethod;
    assert s[0] == number[0] && s[|s| - 1] == sipMethod[|sipMethod| - 1];
    TrimUntouched(s);
    SplitLeadingToken(number, w, sipMethod);
    SplitSingleToken(sipMethod);
  }

  /** A CSeq value with two separators between number and method has an empty
      second token, so its response is logged as unhandled even for SUBSCRIBE
      and MESSAGE. */
  lemma DoubleSeparatorUnhandled(number: string, w: char, sipMethod: string, code: int)
    requires number != [] && sipMethod != []
    requires NoWhiteSpace(number) && NoWhiteSpace(sipMethod) && IsWhiteSpace(w)
    ensures RouteResponse(Some(number + [w, w] + sipMethod), code) == Some(Unhandled(""))
  {
    var s := number + [w, w] + sipMethod;
    assert s[0] == number[0] && s[|s| - 1] == sipMethod[|sipMethod| - 1];
    TrimUntouched(s);
    assert s == number + [w] + ([w] + sipMethod);
    SplitLeadingToken(number, w, [w] + sipMethod);
    assert [w] + sipMethod == [] + [w] + sipMethod;
    SplitLeadingToken([], w, sipMethod);
  }

  /** A CSeq value that is a single token after trimming makes the handler
      throw rather than log. */
  lemma SingleTokenThrows(cseq: string, code: int)
    requires NoWhiteSpace(Trim(cseq))
    ensures RouteResponse(Some(cseq), code) == None
  {
    SplitSingleToken(Trim(cseq));
  }

  /** The port `CreateStack` gives the stack's proxy: none is configured
      without a proxy host; with one, the stack never receives the sentinel
      -1, and a port the caller does give is used as it is. */
  function ProxyPort(proxyHost: Option<string>, proxyPort: int): (r: Option<int>)
    ensures r.Some? <==> proxyHost.Some?
    ensures r.Some? ==> r.value != -1
    ensures r.Some? && proxyPort != -1 ==> r.value == proxyPort
  {
    if proxyHost.None? then None
    else Some(if proxyPort == -1 then 5060 else proxyPort)
  }

  /** Leaving the port out is the same as asking for the SIP default 5060. */
  lemma OmittedPortIsSipDefault(proxyHost: string)
    ensures ProxyPort(Some(proxyHost), -1) == ProxyPort(Some(proxyHost), 5060) == Some(5060)
  {
  }
}

=== FILE: presence.dfy ===
/** Presence extraction and aggregation (`ProcessRequest`) and the layout of
    the forwarded snapshot (`SendPresenceToSCIM`), as values: the PIDF
    element fold, the normalisation of the reporter's address, the store
    transition of one request and the serialisation of a drained store. */
module Presence {
  import opened Wrappers
  import opened Text
  import opened Dispatch

  /** Expanded names of the PIDF `basic` and `note` elements (RFC 3863,
      section 4.1, namespace urn:ietf:params:xml:ns:pidf). */
  const PidfBasic: string := "{urn:ietf:params:xml:ns:pidf}basic"
  const PidfNote: string := "{urn:ietf:params:xml:ns:pidf}note"

  /** The header whose presence the extractor demands. */
  const ContentLengthHeader: string := "Content-Length"

  /** One element of the parsed presence document, as the descendant walk
      yields it: its expanded name `{namespace}local` and its text value. */
  datatype Element = Element(name: string, text: string)

  /** An inbound request as the extractor sees it. `headerNames` are the keys
      of the header table. `document` is the body's descendant elements in
      document order, or `None` when parsing the trimmed body throws.
      `fromUri` is the text of the URI of the From address, or `None` when
      the From header is missing or is not an address. */
  datatype Request = Request(
    sipMethod: string,
    headerNames: set<string>,
    body: string,
    document: Option<seq<Element>>,
    fromUri: Option<string>)

  /** The text of the last element named `name`, "" if there is none: the
      value is always "" or the text of some element with that name. */
  function LastText(elems: seq<Element>, name: string): (r: string)
    ensures r == "" || exists j :: 0 <= j < |elems| && elems[j].name == name && elems[j].text == r
    decreases |elems|
  {
    if elems == [] then ""
    else if elems[|elems| - 1].name == name then elems[|elems| - 1].text
    else LastText(elems[..|elems| - 1], name)
  }

  /** Document order decides: the value is the text of the last element with
      that name. */
  lemma {:induction false} LastTextIsLastMatch(elems: seq<Element>, name: string, i: nat)
    requires i < |elems| && elems[i].name == name
    requires forall j :: i < j < |elems| ==> elems[j].name != name
    ensures LastText(elems, name) == elems[i].text
    decreases |elems|
  {
    if i < |elems| - 1 {
      LastTextIsLastMatch(elems[..|elems| - 1], name, i);
    }
  }

  /** Without an element of that name the value keeps its initial "". */
  lemma {:induction false} LastTextWithoutMatch(elems: seq<Element>, name: string)
    requires forall j :: 0 <= j < |elems| ==> elems[j].name != name
    ensures LastText(elems, name) == ""
    decreases |elems|
  {
    if elems != [] {
      LastTextWithoutMatch(elems[..|elems| - 1], name);
    }
  }

  /** The `foreach` over the descendants, reassigning `basic` and `note` on
      every element whose name matches. */
  method ExtractPresence(elems: seq<Element>) returns (basic: string, note: string)
    ensures basic == LastText(elems, PidfBasic)
    ensures note == LastText(elems, PidfNote)
  {
    basic, note := "", "";
    for i := 0 to |elems|
      invariant basic == LastText(elems[..i], PidfBasic)
      invariant note == LastText(elems[..i], PidfNote)
    {
      assert elems[..i + 1][..i] == elems[..i];
      var element := elems[i];
      if element.name == PidfBasic {
        basic := element.text;
      } else if element.name == PidfNote {
        note := element.text;
      }
    }
    assert elems[..|elems|] == elems;
  }

  /** The reporter key: the From URI with every "<", then every ">", then
      every "sip:" removed. */
  function NormaliseContact(uri: string): (r: string)
    ensures '<' !in r && '>' !in r
    ensures multiset(r) <= multiset(uri)
  {
    var withoutOpen := RemoveAll(uri, "<");
    var withoutClose := RemoveAll(withoutOpen, ">");
    RemoveAllCharAbsent(uri, '<');
    RemoveAllCharAbsent(withoutOpen, '>');
    var r := RemoveAll(withoutClose, "sip:");
    assert multiset(withoutClose)['<'] == 0 && multiset(withoutClose)['>'] == 0;
    r
  }

  /** A bare address, free of brackets and of the scheme, is its own key. */
  lemma NormaliseContactUnchanged(uri: string)
    requires '<' !in uri && '>' !in uri && !Contains(uri, "sip:")
    ensures NormaliseContact(uri) == uri
  {
    if Contains(uri, "<") {
      ContainsCharsPresent(uri, "<", '<');
    }
    if Contains(uri, ">") {
      ContainsCharsPresent(uri, ">", '>');
    }
    RemoveAllWithoutOccurrence(uri, "<");
    RemoveAllWithoutOccurrence(uri, ">");
    RemoveAllWithoutOccurrence(uri, "sip:");
  }

  /** The "sip:" scheme is stripped from a URI, with or without the angle
      brackets of a name-addr, leaving the rest (user@host, with a port if
      there is one) as the key. */
  lemma SchemeStripped(user: string)
    requires '<' !in user && '>' !in user && !Contains(user, "sip:")
    ensures NormaliseContact("sip:" + user) == user
    ensures NormaliseContact("<sip:" + user + ">") == user
  {
    var bare := "sip:" + user;
    assert '<' !in bare && '>' !in bare;
    NoCharUnchanged(bare, '<');
    NoCharUnchanged(bare, '>');
    SchemeRemoved(user);
    BracketsRemoved(bare);
    BracketedIs(user);
  }

  /** Proof step for `SchemeStripped`: regrouping the name-addr literal
      (stated on its own, as the solver is slow to find it in context). */
  lemma BracketedIs(user: string)
    ensures "<sip:" + user + ">" == "<" + ("sip:" + user) + ">"
  {
  }

  /** Removing "sip:" from "sip:" + `user` leaves `user`. */
  lemma SchemeRemoved(user: string)
    requires !Contains(user, "sip:")
    ensures RemoveAll("sip:" + user, "sip:") == user
  {
    RemoveAllPrefix("sip:", user);
    RemoveAllWithoutOccurrence(user, "sip:");
  }

  /** Removing "<", then ">", from a bracketed string without brackets inside
      leaves the inside. */
  lemma BracketsRemoved(inner: string)
    requires '<' !in inner && '>' !in inner
    ensures RemoveAll(RemoveAll("<" + inner + ">", "<"), ">") == inner
  {
    OpenRemoved(inner + ">");
    assert "<" + inner + ">" == "<" + (inner + ">");
    CloseRemoved(inner);
  }

  /** A leading "<" goes, and nothing else when there is no other "<". */
  lemma OpenRemoved(s: string)
    requires '<' !in s
    ensures RemoveAll("<" + s, "<") == s
  {
    RemoveAllPrefix("<", s);
    NoCharUnchanged(s, '<');
  }

  /** A trailing ">" goes, and nothing else when there is no other ">". */
  lemma CloseRemoved(s: string)
    requires '>' !in s
    ensures RemoveAll(s + ">", ">") == s
  {
    RemoveAllCharAtEnd(s, '>');
  }

  /** A string without the character `c` is unchanged by removing `c`. */
  lemma NoCharUnchanged(s: string, c: char)
    requires c !in s
    ensures RemoveAll(s, [c]) == s
  {
    if Contains(s, [c]) {
      ContainsCharsPresent(s, [c], c);
    }
    RemoveAllWithoutOccurrence(s, [c]);
  }

  /** A string without ':' has no "sip:" in it, so removing "sip:" leaves it
      unchanged. */
  lemma NoSchemeUnchanged(s: string)
    requires ':' !in s
    ensures !Contains(s, "sip:")
    ensures RemoveAll(s, "sip:") == s
  {
    if Contains(s, "sip:") {
      ContainsCharsPresent(s, "sip:", ':');
    }
    RemoveAllWithoutOccurrence(s, "sip:");
  }

  /** "sip:" is removed wherever it occurs, not only as the scheme: for
      `sip:bob@gossip:5060` the key is `bob@gos5060`. */
  lemma InnerSchemeRemoved(a: string, b: string)
    requires '<' !in a && '>' !in a && ':' !in a
    requires '<' !in b && '>' !in b && !Contains(b, "sip:")
    ensures NormaliseContact("sip:" + a + "sip:" + b) == a + b
  {
    BracketFreeNormalised("sip:" + a + "sip:" + b);
    RemoveAllTwoOccurrences("sip:", a, b);
    RemoveAllWithoutOccurrence(b, "sip:");
  }

  /** Without angle brackets, normalising only removes "sip:". */
  lemma BracketFreeNormalised(uri: string)
    requires '<' !in uri && '>' !in uri
    ensures NormaliseContact(uri) == RemoveAll(uri, "sip:")
  {
    NoCharUnchanged(uri, '<');
    NoCharUnchanged(uri, '>');
  }

  /** In particular a bare user@host address, which has no ':', is its own key. */
  lemma AddressWithoutColonUnchanged(uri: string)
    requires '<' !in uri && '>' !in uri && ':' !in uri
    ensures NormaliseContact(uri) == uri
  {
    if Contains(uri, "sip:") {
      ContainsCharsPresent(uri, "sip:", ':');
    }
    NormaliseContactUnchanged(uri);
  }

  /** The three guards of `ProcessRequest`: a NOTIFY method, a Content-Length
      header and a non-empty body. */
  predicate CarriesPresence(req: Request)
    ensures CarriesPresence(req) ==> |req.sipMethod| >= 6
  {
    && Contains(ToUpper(req.sipMethod), "NOTIFY")
    && ContentLengthHeader in req.headerNames
    && |req.body| > 0
  }

  /** The (reporter, basic status) pair that reaches `Dictionary.Add`, or
      `None` when a guard fails or something throws before it. There is one
      exactly when the guards hold and both the document and the From address
      are there; its reporter is free of angle brackets and its status is the
      document's last basic text. */
  function Report(req: Request): (r: Option<(string, string)>)
    ensures r.Some? <==> CarriesPresence(req) && req.document.Some? && req.fromUri.Some?
    ensures r.Some? ==> '<' !in r.value.0 && '>' !in r.value.0
    ensures r.Some? ==> r.value.1 == LastText(req.document.value, PidfBasic)
  {
    if !CarriesPresence(req) then None
    else match (req.document, req.fromUri)
      case (Some(elems), Some(uri)) => Some((NormaliseContact(uri), LastText(elems, PidfBasic)))
      case _ => None
  }

  /** A NOTIFY, in any case, with a Content-Length header, a body, a parsed
      document and a `sip:` URI as sender is acknowledged and reports the
      URI's user@host part with the document's last basic status. */
  lemma NotifyFromSipUri(req: Request, elems: seq<Element>, user: string)
    requires ToUpper(req.sipMethod) == "NOTIFY"
    requires ContentLengthHeader in req.headerNames && |req.body| > 0
    requires req.document == Some(elems) && req.fromUri == Some("sip:" + user)
    requires '<' !in user && '>' !in user && !Contains(user, "sip:")
    ensures RouteRequest(req.sipMethod) == Acknowledge
    ensures Report(req) == Some((user, LastText(elems, PidfBasic)))
  {
    NotifyPassesGuards(req);
    SchemeStripped(user);
  }

  /** A NOTIFY, in any case, with a Content-Length header and a body passes
      the three guards and is acknowledged. */
  lemma NotifyPassesGuards(req: Request)
    requires ToUpper(req.sipMethod) == "NOTIFY"
    requires ContentLengthHeader in req.headerNames && |req.body| > 0
    ensures RouteRequest(req.sipMethod) == Acknowledge
    ensures CarriesPresence(req)
  {
    assert StartsWith("NOTIFY", "NOTIFY");
  }

  /** The store after one request has been processed. `Add` throws on a key
      that is already present and the exception is caught, so a reporter
      already in the store keeps its first status until the next drain. */
  function Processed(store: map<string, string>, req: Request): (r: map<string, string>)
    ensures store.Keys <= r.Keys
    ensures forall k :: k in store ==> r[k] == store[k]
    ensures |r.Keys - store.Keys| <= 1
    ensures !CarriesPresence(req) ==> r == store
    ensures req.document.None? || req.fromUri.None? ==> r == store
    ensures r != store ==>
              Report(req).Some? && Report(req).value.0 !in store &&
              r == store[Report(req).value.0 := Report(req).value.1]
  {
    match Report(req)
    case None => store
    case Some((contact, basic)) =>
      if contact in store then store
      else
        assert store[contact := basic].Keys - store.Keys == {contact};
        store[contact := basic]
  }

  /** A report for a reporter not yet in the store adds exactly that entry. */
  lemma NewReporterAdded(store: map<string, string>, req: Request, contact: string, basic: string)
    requires Report(req) == Some((contact, basic)) && contact !in store
    ensures Processed(store, req) == store[contact := basic]
    ensures Processed(store, req).Keys == store.Keys + {contact}
  {
  }

  /** A request that reports nothing for `k` does not add `k`. */
  lemma OtherReportLeavesAbsent(store: map<string, string>, req: Request, k: string)
    requires k !in store
    requires Report(req).None? || Report(req).value.0 != k
    ensures k !in Processed(store, req)
  {
  }

  /** A parsed document without any PIDF basic element still reaches `Add`:
      the reporter is stored with the empty status. */
  lemma MissingBasicStoredEmpty(store: map<string, string>, req: Request, elems: seq<Element>, uri: string)
    requires CarriesPresence(req) && req.document == Some(elems) && req.fromUri == Some(uri)
    requires forall j :: 0 <= j < |elems| ==> elems[j].name != PidfBasic
    requires NormaliseContact(uri) !in store
    ensures Processed(store, req) == store[NormaliseContact(uri) := ""]
  {
    LastTextWithoutMatch(elems, PidfBasic);
  }

  /** A report for a reporter already in the store is dropped. */
  lemma KnownReporterKept(store: map<string, string>, req: Request)
    requires Report(req).Some? && Report(req).value.0 in store
    ensures Processed(store, req) == store
  {
  }

  /** Of the acknowledged methods only NOTIFY passes the first guard, so no
      other acknowledged request can change the store. */
  lemma OnlyNotifyChangesStore(store: map<string, string>, req: Request)
    requires RouteRequest(req.sipMethod) == Acknowledge
    requires Processed(store, req) != store
    ensures ToUpper(req.sipMethod) == "NOTIFY"
  {
    var m := ToUpper(req.sipMethod);
    assert Contains(m, "NOTIFY");
    if m != "NOTIFY" {
      NotifyOnlyInNotify(m);
    }
  }

  /** None of the eight other acknowledged methods contains "NOTIFY". */
  lemma NotifyOnlyInNotify(m: string)
    requires m in AcknowledgedMethods && m != "NOTIFY"
    ensures !Contains(m, "NOTIFY")
  {
    OtherMethodsLackY(m);
    NotifyNeedsY(m);
  }

  /** Each of the eight is shorter than "NOTIFY" or has no 'Y'. */
  lemma OtherMethodsLackY(m: string)
    requires m in AcknowledgedMethods && m != "NOTIFY"
    ensures 'Y' !in m || |m| < 6
  {
    assert m == "INVITE" || m == "REGISTER" || m == "BYE" || m == "ACK" || m == "MESSAGE"
        || m == "OPTIONS" || m == "REFER" || m == "SUBSCRIBE";
  }

  /** "NOTIFY" cannot occur in a string shorter than it or without a 'Y'. */
  lemma NotifyNeedsY(m: string)
    requires 'Y' !in m || |m| < 6
    ensures !Contains(m, "NOTIFY")
  {
    if Contains(m, "NOTIFY") {
      ContainsCharsPresent(m, "NOTIFY", 'Y');
    }
  }

  /** The report of a request as the server receives it: requests that
      `AppRequestRecvEvent` only logs never reach `ProcessRequest`, so they
      report nothing. Whatever is reported comes from a NOTIFY. */
  function Accepted(req: Request): (r: Option<(string, string)>)
    ensures r.Some? <==> RouteRequest(req.sipMethod) == Acknowledge && Report(req).Some?
    ensures r.Some? ==> r == Report(req) && ToUpper(req.sipMethod) == "NOTIFY"
  {
    if RouteRequest(req.sipMethod) == Acknowledge && Report(req).Some? then
      AcknowledgedReportIsNotify(req);
      Report(req)
    else None
  }

  /** An acknowledged request that reports a pair is a NOTIFY: the eight other
      acknowledged methods fail the "NOTIFY" guard. */
  lemma AcknowledgedReportIsNotify(req: Request)
    requires RouteRequest(req.sipMethod) == Acknowledge && Report(req).Some?
    ensures ToUpper(req.sipMethod) == "NOTIFY"
  {
    var m := ToUpper(req.sipMethod);
    if m != "NOTIFY" {
      NotifyOnlyInNotify(m);
      assert false;
    }
  }

  /** The store after the server has received one request: acknowledged
      requests are processed, the others leave the store alone. Only an
      accepted report for an absent reporter changes it. */
  function Received(store: map<string, string>, req: Request): (r: map<string, string>)
    ensures store.Keys <= r.Keys
    ensures forall k :: k in store ==> r[k] == store[k]
    ensures r != store ==>
              Accepted(req).Some? && Accepted(req).value.0 !in store &&
              r == store[Accepted(req).value.0 := Accepted(req).value.1]
  {
    if RouteRequest(req.sipMethod) == Acknowledge then Processed(store, req) else store
  }

  /** An accepted report for an absent reporter adds exactly that entry. */
  lemma AcceptedAdded(store: map<string, string>, req: Request, k: string, v: string)
    requires Accepted(req) == Some((k, v)) && k !in store
    ensures Received(store, req) == store[k := v]
  {
    NewReporterAdded(store, req, k, v);
  }

  /** The store after a run of received requests, in arrival order: it only
      grows, and by at most one reporter per request. */
  function ProcessAll(store: map<string, string>, reqs: seq<Request>): (r: map<string, string>)
    ensures store.Keys <= r.Keys
    ensures |r.Keys - store.Keys| <= |reqs|
    decreases |reqs|
  {
    if reqs == [] then store
    else
      var next := Received(store, reqs[0]);
      assert |next.Keys - store.Keys| <= 1 by {
        if next != store {
          assert next.Keys - store.Keys == {Accepted(reqs[0]).value.0};
        }
      }
      ProcessAll(next, reqs[1..])
  }

  /** Requests that are only logged leave the store as it was, whatever
      they carry. */
  lemma {:induction false} LoggedRequestsIgnored(store: map<string, string>, reqs: seq<Request>)
    requires forall j :: 0 <= j < |reqs| ==> RouteRequest(reqs[j].sipMethod) != Acknowledge
    ensures ProcessAll(store, reqs) == store
    decreases |reqs|
  {
    if reqs != [] {
      LoggedRequestsIgnored(store, reqs[1..]);
    }
  }

  /** Between two drains a stored status is never replaced. */
  lemma {:induction false} StoredStatusKept(store: map<string, string>, reqs: seq<Request>, k: string)
    requires k in store
    ensures k in ProcessAll(store, reqs) && ProcessAll(store, reqs)[k] == store[k]
    decreases |reqs|
  {
    if reqs != [] {
      StoredStatusKept(Received(store, reqs[0]), reqs[1..], k);
    }
  }

  /** Between two drains the first accepted report for a reporter wins:
      later reports for the same reporter are dropped. */
  lemma {:induction false} FirstReportWins(store: map<string, string>, reqs: seq<Request>, i: nat, k: string, v: string)
    requires i < |reqs| && Accepted(reqs[i]) == Some((k, v)) && k !in store
    requires forall j :: 0 <= j < i ==> Accepted(reqs[j]).None? || Accepted(reqs[j]).value.0 != k
    ensures k in ProcessAll(store, reqs) && ProcessAll(store, reqs)[k] == v
    decreases |reqs|
  {
    var next := Received(store, reqs[0]);
    if i == 0 {
      AcceptedAdded(store, reqs[0], k, v);
      StoredStatusKept(next, reqs[1..], k);
    } else {
      assert k !in next;
      forall j | 0 <= j < i - 1
        ensures Accepted(reqs[1..][j]).None? || Accepted(reqs[1..][j]).value.0 != k
      {
        assert reqs[1..][j] == reqs[j + 1];
      }
      FirstReportWins(next, reqs[1..], i - 1, k, v);
    }
  }

  /** A reporter for which no request is accepted stays absent. */
  lemma {:induction false} UnreportedAbsent(store: map<string, string>, reqs: seq<Request>, k: string)
    requires k !in store
    requires forall j :: 0 <= j < |reqs| ==> Accepted(reqs[j]).None? || Accepted(reqs[j]).value.0 != k
    ensures k !in ProcessAll(store, reqs)
    decreases |reqs|
  {
    if reqs != [] {
      assert k !in Received(store, reqs[0]);
      UnreportedAbsent(Received(store, reqs[0]), reqs[1..], k);
    }
  }

  /** The downstream sink of the forwarded snapshot. */
  const ScimAddress: string := "<sip:scim@open-ims.test>"

  /** An outbound MESSAGE: its target and its body. */
  datatype Message = Message(to: string, body: string)

  /** The text appended for one store entry. */
  function Entry(reporter: string, status: string): string {
    reporter + ":" + status
  }

  predicate Distinct(order: seq<string>) {
    forall i, j :: 0 <= i < j < |order| ==> order[i] != order[j]
  }

  /** `order` lists every key of the store once: one possible enumeration
      order of the dictionary, which .NET leaves unspecified. */
  predicate IsEnumeration(order: seq<string>, keys: set<string>) {
    && Distinct(order)
    && (forall k :: k in order ==> k in keys)
    && (forall k :: k in keys ==> k in order)
  }

  /** The entries of `order`, concatenated with no separator. Each entry has
      at least its ':', so the blob is empty exactly when there are no keys. */
  function Serialize(order: seq<string>, store: map<string, string>): (r: string)
    requires forall k :: k in order ==> k in store
    ensures |r| >= |order|
    ensures r == "" <==> order == []
    decreases |order|
  {
    if order == [] then "" else Entry(order[0], store[order[0]]) + Serialize(order[1..], store)
  }

  /** Serialising a concatenation of key lists concatenates the blobs. */
  lemma {:induction false} SerializeConcat(a: seq<string>, b: seq<string>, store: map<string, string>)
    requires forall k :: k in a ==> k in store
    requires forall k :: k in b ==> k in store
    ensures Serialize(a + b, store) == Serialize(a, store) + Serialize(b, store)
    decreases |a|
  {
    if a == [] {
      assert a + b == b;
    } else {
      assert (a + b)[0] == a[0] && (a + b)[1..] == a[1..] + b;
      SerializeConcat(a[1..], b, store);
      var e, ra, rb := Entry(a[0], store[a[0]]), Serialize(a[1..], store), Serialize(b, store);
      assert Serialize(a + b, store) == e + (ra + rb);
      assert Serialize(a, store) == e + ra;
      assert e + (ra + rb) == (e + ra) + rb;
    }
  }

  /** An enumeration of a key set has exactly as many entries as the set. */
  lemma {:induction false} DistinctKeysBounded(order: seq<string>, keys: set<string>)
    requires IsEnumeration(order, keys)
    ensures |order| == |keys|
    decreases |order|
  {
    if order != [] {
      var rest := keys - {order[0]};
      forall k | k in order[1..] ensures k in rest {
        var j :| 0 <= j < |order[1..]| && order[1..][j] == k;
        assert order[j + 1] == k;
      }
      forall k | k in rest ensures k in order[1..] {
        var j :| 0 <= j < |order| && order[j] == k;
        assert j != 0;
      }
      DistinctKeysBounded(order[1..], rest);
    }
  }

  /** Each key's entry sits between the blob of the keys before it and the
      blob of the keys after it. */
  lemma SerializeAt(order: seq<string>, store: map<string, string>, i: nat)
    requires forall k :: k in order ==> k in store
    requires i < |order|
    ensures Serialize(order, store) ==
              Serialize(order[..i], store) + Entry(order[i], store[order[i]]) + Serialize(order[i + 1..], store)
  {
    assert order == order[..i] + order[i..];
    SerializeConcat(order[..i], order[i..], store);
    assert order[i..][1..] == order[i + 1..];
  }

  /** The drained blob holds every store entry exactly once: one entry per
      key, at the key's position in the enumeration. */
  lemma DrainedBodyListsEveryEntry(order: seq<string>, store: map<string, string>)
    requires IsEnumeration(order, store.Keys)
    ensures |order| == |store|
    ensures forall i :: 0 <= i < |order| ==>
              Serialize(order, store) ==
                Serialize(order[..i], store) + Entry(order[i], store[order[i]]) + Serialize(order[i + 1..], store)
  {
    DistinctKeysBounded(order, store.Keys);
    forall i | 0 <= i < |order|
      ensures Serialize(order, store) ==
                Serialize(order[..i], store) + Entry(order[i], store[order[i]]) + Serialize(order[i + 1..], store)
    {
      SerializeAt(order, store, i);
    }
  }
}

=== FILE: text.dfy ===
/** The .NET string operations the presence bridge relies on: upper-casing,
    substring search, removal of every occurrence of a pattern
    (`String.Replace(pattern, "")`), `Trim()` and the argument-less `Split()`.
    The model writes each out with ordinal (culture-independent) semantics;
    the bridge's own `ToUpper()` is culture-sensitive, which it does not capture. */
module Text {

  /** `Char.IsWhiteSpace`: the Unicode space, line and paragraph separators,
      the control characters U+0009 to U+000D, and U+0085. */
  predicate IsWhiteSpace(c: char) {
    || ('\t' <= c <= '\r')
    || c == ' '
    || c == '\U{0085}'
    || c == '\U{00A0}'
    || c == '\U{1680}'
    || ('\U{2000}' <= c <= '\U{200A}')
    || c == '\U{2028}'
    || c == '\U{2029}'
    || c == '\U{202F}'
    || c == '\U{205F}'
    || c == '\U{3000}'
  }

  /** A string with no white-space character in it. */
  predicate NoWhiteSpace(s: string) {
    forall i :: 0 <= i < |s| ==> !IsWhiteSpace(s[i])
  }

  /** Upper-casing of one character; only the ASCII letters are mapped. */
  function UpperChar(c: char): char {
    if 'a' <= c <= 'z' then (c as int - 32) as char else c
  }

  /** `String.ToUpper()`, character by character: the result has the same
      length, keeps every character that is not a lower-case letter, and has
      no lower-case letter left. */
  function ToUpper(s: string): (r: string)
    ensures |r| == |s|
    ensures forall i :: 0 <= i < |s| && !('a' <= s[i] <= 'z') ==> r[i] == s[i]
    ensures forall i :: 0 <= i < |r| ==> !('a' <= r[i] <= 'z')
  {
    seq(|s|, i requires 0 <= i < |s| => UpperChar(s[i]))
  }

  /** Upper-casing twice is upper-casing once, so a comparison against an
      upper-case constant ignores the case of its input. */
  lemma ToUpperIdempotent(s: string)
    ensures ToUpper(ToUpper(s)) == ToUpper(s)
  {
  }

  /** `String.StartsWith(prefix)` under ordinal comparison. */
  predicate StartsWith(s: string, prefix: string) {
    |prefix| <= |s| && s[..|prefix|] == prefix
  }

  /** `String.Contains(sub)`: some suffix of `s` starts with `sub`. A string
      never contains a longer one. */
  predicate Contains(s: string, sub: string)
    ensures Contains(s, sub) ==> |sub| <= |s|
    decreases |s|
  {
    StartsWith(s, sub) || (s != [] && Contains(s[1..], sub))
  }

  /** `sub` occurs in `s` at index `k`. */
  predicate OccursAt(s: string, sub: string, k: int) {
    0 <= k && k + |sub| <= |s| && s[k..k + |sub|] == sub
  }

  /** `Contains` holds whenever `sub` occurs at some index of `s`
      (`ContainsWitness` is the converse). */
  lemma {:induction false} ContainsAt(s: string, sub: string, k: nat)
    requires OccursAt(s, sub, k)
    ensures Contains(s, sub)
    decreases k
  {
    if k == 0 {
      assert s[..|sub|] == s[k..k + |sub|];
    } else {
      assert s[1..][k - 1..k - 1 + |sub|] == s[k..k + |sub|];
      ContainsAt(s[1..], sub, k - 1);
    }
  }

  /** `Contains` holds only when `sub` occurs at some index of `s`. */
  lemma {:induction false} ContainsWitness(s: string, sub: string)
    requires Contains(s, sub)
    ensures exists k :: OccursAt(s, sub, k)
    decreases |s|
  {
    if StartsWith(s, sub) {
      assert s[0..0 + |sub|] == sub;
      assert OccursAt(s, sub, 0);
    } else {
      ContainsWitness(s[1..], sub);
      var k :| OccursAt(s[1..], sub, k);
      assert s[k + 1..k + 1 + |sub|] == s[1..][k..k + |sub|];
      assert OccursAt(s, sub, k + 1);
    }
  }

  /** A string contains a substring only if it is at least as long and has
      every character of it. */
  lemma {:induction false} ContainsCharsPresent(s: string, sub: string, c: char)
    requires Contains(s, sub) && c in sub
    ensures c in s && |sub| <= |s|
    decreases |s|
  {
    if StartsWith(s, sub) {
      assert c in s[..|sub|];
    } else {
      ContainsCharsPresent(s[1..], sub, c);
      assert s == [s[0]] + s[1..];
    }
  }

  /** `String.Replace(pattern, "")`: a single left-to-right scan that drops
      every non-overlapping occurrence of `pattern`; the characters it keeps
      stay in order and are never re-examined, so a new occurrence formed by
      the removal survives. */
  function RemoveAll(s: string, pattern: string): (r: string)
    requires pattern != []
    ensures |r| <= |s|
    ensures multiset(r) <= multiset(s)
    decreases |s|
  {
    if |s| < |pattern| then s
    else if s[..|pattern|] == pattern then
      assert s == s[..|pattern|] + s[|pattern|..];
      RemoveAll(s[|pattern|..], pattern)
    else
      assert s == [s[0]] + s[1..];
      [s[0]] + RemoveAll(s[1..], pattern)
  }

  /** Removing a single character removes every occurrence of it. */
  lemma {:induction false} RemoveAllCharAbsent(s: string, c: char)
    ensures c !in RemoveAll(s, [c])
    decreases |s|
  {
    if |s| >= 1 {
      if s[..1] == [c] {
        RemoveAllCharAbsent(s[1..], c);
      } else {
        assert s[0] != c;
        RemoveAllCharAbsent(s[1..], c);
      }
    }
  }

  /** An occurrence of the pattern at the front is removed whole. */
  lemma RemoveAllPrefix(pattern: string, s: string)
    requires pattern != []
    ensures RemoveAll(pattern + s, pattern) == RemoveAll(s, pattern)
  {
    var t := pattern + s;
    assert t[..|pattern|] == pattern && t[|pattern|..] == s;
  }

  /** A first character that does not start an occurrence is kept. */
  lemma RemoveAllSkip(c: char, s: string, pattern: string)
    requires pattern != [] && !StartsWith([c] + s, pattern)
    ensures RemoveAll([c] + s, pattern) == [c] + RemoveAll(s, pattern)
  {
    var t := [c] + s;
    assert t[0] == c && t[1..] == s;
  }

  /** A trailing occurrence of a single character absent elsewhere is
      removed, and nothing else. */
  lemma {:induction false} RemoveAllCharAtEnd(s: string, c: char)
    requires c !in s
    ensures RemoveAll(s + [c], [c]) == s
    decreases |s|
  {
    var t := s + [c];
    if s == [] {
      assert t[..1] == [c] && t[1..] == [];
    } else {
      assert t[..1] == [s[0]] && t[1..] == s[1..] + [c];
      RemoveAllCharAtEnd(s[1..], c);
      assert s == [s[0]] + s[1..];
    }
  }

  /** When the pattern's last character occurs neither earlier in the
      pattern nor in `a`, removal drops a leading occurrence, keeps `a` and
      drops the occurrence after it. */
  lemma RemoveAllTwoOccurrences(p: string, a: string, b: string)
    requires p != [] && p[|p| - 1] !in p[..|p| - 1] && p[|p| - 1] !in a
    ensures RemoveAll(p + a + p + b, p) == a + RemoveAll(b, p)
  {
    assert p + a + p + b == p + (a + p + b);
    RemoveAllPrefix(p, a + p + b);
    RemoveAllBeforeOccurrence(p, a, b);
  }

  /** No occurrence of the pattern starts inside `a` when the pattern's last
      character occurs neither earlier in the pattern nor in `a`, so removal
      keeps `a` and goes on after the occurrence that follows it. */
  lemma {:induction false} RemoveAllBeforeOccurrence(p: string, a: string, b: string)
    requires p != [] && p[|p| - 1] !in p[..|p| - 1] && p[|p| - 1] !in a
    ensures RemoveAll(a + p + b, p) == a + RemoveAll(b, p)
    decreases |a|
  {
    if a == [] {
      assert a + p + b == p + b;
      RemoveAllPrefix(p, b);
    } else {
      NoOccurrenceAtFront(p, a, b);
      var tail := a[1..] + p + b;
      assert a + p + b == [a[0]] + tail;
      RemoveAllSkip(a[0], tail, p);
      assert p[|p| - 1] !in a[1..];
      RemoveAllBeforeOccurrence(p, a[1..], b);
      var rb := RemoveAll(b, p);
      assert RemoveAll(a + p + b, p) == [a[0]] + (a[1..] + rb);
      assert [a[0]] + (a[1..] + rb) == a + rb;
    }
  }

  /** Under the same condition an occurrence cannot start at the front of a
      non-empty `a`. */
  lemma NoOccurrenceAtFront(p: string, a: string, b: string)
    requires p != [] && p[|p| - 1] !in p[..|p| - 1] && p[|p| - 1] !in a && a != []
    ensures !StartsWith(a + p + b, p)
  {
    var t, n := a + p + b, |p| - 1;
    if |a| > n {
      assert t[n] == a[n];
    } else {
      assert t[n] == p[n - |a|];
      assert p[n - |a|] in p[..n];
    }
    assert t[..|p|][n] != p[n];
  }

  /** A string in which the pattern does not occur is returned unchanged. */
  lemma {:induction false} RemoveAllWithoutOccurrence(s: string, pattern: string)
    requires pattern != []
    requires !Contains(s, pattern)
    ensures RemoveAll(s, pattern) == s
    decreases |s|
  {
    if |s| >= |pattern| {
      assert !StartsWith(s, pattern);
      RemoveAllWithoutOccurrence(s[1..], pattern);
      assert s == [s[0]] + s[1..];
    }
  }

  /** `String.TrimStart()`: drops the leading white space, and only that. */
  function TrimStart(s: string): (r: string)
    ensures |r| <= |s| && r == s[|s| - |r|..]
    ensures r == [] || !IsWhiteSpace(r[0])
    ensures forall i :: 0 <= i < |s| - |r| ==> IsWhiteSpace(s[i])
    decreases |s|
  {
    if s != [] && IsWhiteSpace(s[0]) then
      var r := TrimStart(s[1..]);
      assert s[1..][|s| - 1 - |r|..] == s[|s| - |r|..];
      assert forall i :: 1 <= i < |s| - |r| ==> s[i] == s[1..][i - 1];
      r
    else s
  }

  /** `String.TrimEnd()`: drops the trailing white space, and only that. */
  function TrimEnd(s: string): (r: string)
    ensures |r| <= |s| && r == s[..|r|]
    ensures r == [] || !IsWhiteSpace(r[|r| - 1])
    ensures forall i :: |r| <= i < |s| ==> IsWhiteSpace(s[i])
    decreases |s|
  {
    if s != [] && IsWhiteSpace(s[|s| - 1]) then TrimEnd(s[..|s| - 1]) else s
  }

  /** `String.Trim()`: a piece of the input with neither end white space. */
  function Trim(s: string): (r: string)
    ensures |r| <= |s|
    ensures r == [] || (!IsWhiteSpace(r[0]) && !IsWhiteSpace(r[|r| - 1]))
  {
    TrimEnd(TrimStart(s))
  }

  /** A string that neither starts nor ends with white space is its own trim. */
  lemma TrimUntouched(s: string)
    requires s != [] && !IsWhiteSpace(s[0]) && !IsWhiteSpace(s[|s| - 1])
    ensures Trim(s) == s
  {
  }

  /** The white-space characters of `s`, in order. */
  function Separators(s: string): (r: seq<char>)
    ensures |r| <= |s|
    decreases |s|
  {
    if s == [] then []
    else if IsWhiteSpace(s[0]) then [s[0]] + Separators(s[1..])
    else Separators(s[1..])
  }

  /** The tokens put back together with one separator between neighbours. */
  function Join(tokens: seq<string>, separators: seq<char>): string
    requires |tokens| == |separators| + 1
  {
    tokens[0] + JoinTail(tokens[1..], separators)
  }

  /** Each separator followed by the token after it. */
  function JoinTail(tokens: seq<string>, separators: seq<char>): string
    requires |tokens| == |separators|
    decreases |separators|
  {
    if separators == [] then ""
    else [separators[0]] + tokens[0] + JoinTail(tokens[1..], separators[1..])
  }

  /** `String.Split()` without arguments: every single white-space character
      separates two tokens, so consecutive separators yield empty tokens and
      the result always has one token more than `s` has white-space
      characters. */
  function Split(s: string): (r: seq<string>)
    ensures |r| == |Separators(s)| + 1
    ensures forall i :: 0 <= i < |r| ==> NoWhiteSpace(r[i])
    decreases |s|
  {
    if s == [] then [""]
    else
      var rest := Split(s[1..]);
      if IsWhiteSpace(s[0]) then [""] + rest
      else [[s[0]] + rest[0]] + rest[1..]
  }

  /** Splitting loses nothing: the tokens joined with the separators they
      were split at give back the string. */
  lemma {:induction false} SplitJoin(s: string)
    ensures Join(Split(s), Separators(s)) == s
    decreases |s|
  {
    if s != [] {
      var rest, seps := Split(s[1..]), Separators(s[1..]);
      SplitJoin(s[1..]);
      if IsWhiteSpace(s[0]) {
        assert ([""] + rest)[1..] == rest;
        assert Join([""] + rest, [s[0]] + seps) == [s[0]] + rest[0] + JoinTail(rest[1..], seps);
      } else {
        var tokens := [[s[0]] + rest[0]] + rest[1..];
        assert tokens[1..] == rest[1..];
        assert ([s[0]] + rest[0]) + JoinTail(rest[1..], seps) == [s[0]] + (rest[0] + JoinTail(rest[1..], seps));
      }
      assert s == [s[0]] + s[1..];
    }
  }

  /** A string without white space is a single token. */
  lemma {:induction false} SplitSingleToken(t: string)
    requires NoWhiteSpace(t)
    ensures Split(t) == [t]
    decreases |t|
  {
    if t != [] {
      SplitSingleToken(t[1..]);
      assert t == [t[0]] + t[1..];
    }
  }

  /** A token followed by one white-space character is split off whole, and
      the rest of the string is split on its own. */
  lemma {:induction false} SplitLeadingToken(t: string, w: char, rest: string)
    requires NoWhiteSpace(t) && IsWhiteSpace(w)
    ensures Split(t + [w] + rest) == [t] + Split(rest)
    decreases |t|
  {
    var s := t + [w] + rest;
    if t == [] {
      assert s[1..] == rest;
    } else {
      assert s[1..] == t[1..] + [w] + rest;
      SplitLeadingToken(t[1..], w, rest);
      assert t == [t[0]] + t[1..];
    }
  }
}

=== FILE: wrappers.dfy ===
/** The optional value used for calls into the .NET runtime and the SIP stack
    that may fail or return nothing. */
module Wrappers {

  datatype Option<+T> = None | Some(value: T)

}
